=== FILE: README.md ===
# Modular multiplication display — a Dafny model

The program draws "modular multiplication" patterns. It places boundary
samples on a regular polygon, or on a circle once the vertex count reaches
50. It joins sample `i` to sample `i * K mod L`, where `L` is the number of
samples. A display object holds four parameters: vertex count V, modulus M,
multiplier K and rotation angle. It also caches three derived stages: the
polygon corners, the boundary samples and the connections. `change_parameters`
recomputes only the stages that are stale.

This project models that core and proves properties of it:

- `geometry.dfy` (module `Geometry`): the circle/polygon mode switch, the
  corners, the side-by-side sampling order of `polygon_points`, and the number
  of boundary samples. A point is an abstract value that records how it was
  built: a rotated root of unity, or step `s` of `k` between two points. It is
  not a pair of floats.
- `connections.dfy` (module `ConnectionGraph`): the multiplication graph,
  built as a reference function and as a loop that mirrors the program.
- `controller.dfy` (module `Controller`): the display state as an immutable
  record with `Option` caches. `change_parameters` is a state-transition
  function. It returns the new state and which stages it redid, or the fault
  the program would raise together with the state left behind. The key
  result is that skipping work is sound. From a consistent state every call
  with a positive vertex count succeeds, and afterwards every cache equals
  what a from-scratch computation on the new parameters gives.
- `rendering.dfy` (module `Rendering`) and `caption.dfy` (module `Captions`):
  what `get_image` reads from the state. That is the outline, one segment per
  connection looked up in the boundary samples, and the caption text.
- `wrappers.dfy` (module `Wrappers`): `Option` and `Result`.

The angle is a `real`, and the model only compares it for equality. The
program's attribute reads of caches it has not assigned yet become `Fault`
values. So does the division by a zero vertex count. A failing call also
returns the state it leaves behind, because the program has already stored
some of the new parameters when it raises. The `## Findings`
section has the one place where the code falls short of its evident
intention.

## Model

| member | source | states |
|---|---|---|
| `Geometry.CircleModeThreshold` | modular_multiplication.py:25-26 | Circle mode holds iff V >= 50, the maximum vertex count of line 10. For positive V it is exactly the mode with no corners. |
| `Geometry.Vertices` | modular_multiplication.py:28-37 | No corners in circle mode. Otherwise exactly V corners, where corner j is the j-th V-th root of unity under the current rotation, and all of them are distinct. |
| `Geometry.PolygonSampleOrder` | modular_multiplication.py:39-46 | With N corners and k samples per side there are N*k samples. Sample `idx` is step `idx mod k` of k on the side from corner `idx div k` to the next corner, and the last side wraps back to corner 0. When the step is 0 the sample is the corner itself. |
| `Geometry.EdgePointCount` | modular_multiplication.py:48-58 | Circle mode gives exactly M samples. Polygon mode gives `V * (M div V)` samples. That count is at most M, equals M when V divides M, and is 0 when M < V. |
| `ConnectionGraph.Connections` | modular_multiplication.py:60-65 | L pairs. Pair i starts at i and ends at an index below L. The first pair is (0,0) when L > 0, and there are no pairs when L = 0. |
| `ConnectionGraph.ComputeConnections` | modular_multiplication.py:60-65 | The loop over the boundary samples builds exactly the reference graph `(i, i*K mod L)` for every multiplier, negative ones included. |
| `ConnectionGraph.ReduceMultiplier` | modular_multiplication.py:63 | The graph depends only on `K mod L`. |
| `Controller.ChangeParametersAsWritten` | modular_multiplication.py:67-86 | On success the stored parameters equal the arguments. Corners are redone iff the angle or V changed. Samples are redone iff the angle, V or M changed. Connections are redone iff the sample count or K changed. A redone stage holds its fresh value: the corners of the new V and angle, the samples taken along the corners the state then holds, the graph of the new sample count and K. A skipped stage keeps its cache. From a consistent state, a call with V > 0 always succeeds and leaves a consistent state. The call raises exactly when the samples are due in polygon mode and V = 0 (division by zero) or the corners were never computed (missing corners), or when the samples are not due and were never computed (missing samples). A failing call returns the state it leaves behind: the new angle, plus the new V, corners and M when those stages were due, with the old samples and connections and the old K. Everything else keeps its old value, so connections that were current before a failing call are still current after it. |
| `Controller.ChangeParameters` | modular_multiplication.py:67-86 | The corrected call, which also recomputes connections that were never computed. It agrees with the program whenever connections exist and fails exactly when the program fails. After a success the connections are present. If they were current before, they are the graph of the current sample count and K. The first successful call on a fresh display leaves every cache consistent. From a consistent state, a call with V > 0 succeeds and keeps every cache consistent. |
| `Controller.RepeatedCallIsIdle` | modular_multiplication.py:67-86 | A second call with the same arguments redoes nothing and changes nothing. This holds in both the as-written and the corrected version. |
| `Controller.FirstCallFaults` | modular_multiplication.py:15-86 | On a fresh display (3, 9, 2, 0) the first call fails exactly when V = 0 (division by zero) or when V = 3 and the angle is 0. In that case there are no corners to sample if M changed, and no samples to count otherwise. |
| `Controller.FirstCallMissesConnections` | modular_multiplication.py:72-86 | After a successful first call the program holds no connections iff there are no samples and K is still the constructor's 2. |
| `Controller.ConnectionsRedoneOnCountChange` | modular_multiplication.py:79-86 | From a consistent state the connections are redone iff the number of samples the parameters call for changes or K changes. |
| `Controller.SessionStaysConsistent` | modular_multiplication.py:67-86 | Any sequence of calls with positive V from a consistent state succeeds, keeps every cache consistent and stores the last call's parameters. |
| `Controller.SessionFromStart` | modular_multiplication.py:174-180 | A session of corrected calls with positive V on a fresh display succeeds and ends consistent once its first call succeeds. With the program's own call this can fail: the one-call session (4, 2, 2, 0) ends without connections. |
| `Controller.RetryAfterZeroVertexCount` | modular_multiplication.py:74-83 | On a consistent display, a call with V = 0 raises division by zero after storing the angle, V = 0, an empty corner list and M. Repeating the call then succeeds without recomputing anything. It keeps the old samples and connections under V = 0, so the state is no longer consistent. |
| `Rendering.SegmentsLookup` | modular_multiplication.py:97-101 | Looking up the connections succeeds iff every end index is a sample index. Segment i then joins the two samples that connection i names. |
| `Rendering.RenderConsistent` | modular_multiplication.py:88-110 | A consistent state always renders. The outline matches the mode, and segment i joins sample i to sample `i*K mod L`. |
| `Rendering.DrawAfterFirstCallFails` | modular_multiplication.py:98 | The call (4, 2, 2, 0) on a fresh display leaves no connections, and drawing then fails. The corrected call draws an empty graph. |
| `Captions.Decimal` | modular_multiplication.py:109 | Integer text is non-empty and all digits, with no leading zero. |
| `Captions.DecimalRoundTrip` | modular_multiplication.py:109 | Integer text reads back as the number it came from. |
| `Captions.CaptionFields` | modular_multiplication.py:108-109 | The caption starts with "Modular multiplication " and the mode word. In polygon mode the mode word is followed by ", V=" and the decimal V, and that is the only capital V the caption can hold. In circle mode nothing stands between the mode word and the closing fields. The caption ends with ", M=", the decimal M, ", K=" and K with its sign. |

## Findings

| source | as written | input that shows it | evidently intended | confidence | as-written member | corrected member |
|---|---|---|---|---|---|---|
| modular_multiplication.py:72-86 | A display without `edge_points` counts as having 0 samples. If the first call also yields 0 samples and keeps K = 2, the sample count looks unchanged and `connections` is never assigned, so `get_image` fails at line 98. | `ModularMultiplicationDisplay(...)`, then `change_parameters(4, 2, 2, 0.0)`, then `get_image()` | Connections that were never computed count as stale, so every successful call leaves them equal to the graph of the current samples | medium; not executed (the GUI avoids it because its first call is V = 3, M = 100, which gives 99 samples) | `Controller.ChangeParametersAsWritten`, exhibited by `Rendering.DrawAfterFirstCallFails` and `Controller.FirstCallMissesConnections` | `Controller.ChangeParameters`, proved by `Controller.SessionFromStart` and `Controller.SessionStaysConsistent` |

Two details of the code matter for the model:

- The code stores V, M and K only inside the branches that recompute. It
  stores the angle first, on every call. Every skipped branch has an
  unchanged parameter, so the stored values still equal the arguments
  (proved).
- The code reads `vertex_points` and `edge_points` without a guard. A first
  call that changes neither V nor the angle therefore fails. This is
  modelled as a fault, not hidden behind a precondition.

## Left out

- Floating-point geometry is left out: coordinates, `np.exp` roots of unity, `rotate_points`, scaling to the drawing size and translation to the image centre. Points are abstract (`Geometry.Point`).
- Geometry.Lerp: step 0 is exactly the corner. In floating point, `(1-0)*p1 + 0*p2` equals `p1` up to the sign of a zero coordinate.
- `clean_complex` in utils.py is left out. It is float tolerance snapping, and nothing in the modelled code calls it.
- PIL drawing, font loading and pixel output are left out. Only what `get_image` reads from the state and the caption text are modelled.
- The tkinter `GUI` class is left out: the sliders, the `update_multiplier_max` clamp, canvas blitting and the main loop. They are UI plumbing. The GUI's bounds (V 3..50, M 1..1000, K 0..M) are not assumed.
- Negative vertex counts and moduli are left out. V and M are `nat`, so the program's behaviour on negatives is not modelled. That behaviour is empty numpy ranges, or a `linspace` error for a negative sample count.
- The imaging library's own refusals are not modelled, for example a polygon with fewer corners than it accepts. The outline and segments are modelled only as values handed to it.
- A NaN angle is left out. Angles are `real`, compared only for equality.
- Controller.ChangeParametersAsWritten: the soundness ensures needs a consistent starting state. On a fresh display the connections may be missing (see Findings).
- That the graph is a permutation of the sample indices when gcd(K, L) = 1 is not proved.
- The program mutates the display object in place. The model returns a new record instead. A call that raises returns the partly updated record with its fault, so the assignments made before the raise are kept.

=== FILE: caption.dfy ===
/** The caption drawn in the top-left corner of the image, e.g.
    "Modular multiplication polygon, V=4, M=100, K=2". */
module Captions {
  import opened Geometry

  predicate IsDigit(c: char) {
    '0' <= c <= '9'
  }

  function DigitChar(d: nat): (c: char)
    requires d < 10
  {
    "0123456789"[d]
  }

  function DigitValue(c: char): (v: nat)
    requires IsDigit(c)
  {
    c as int - '0' as int
  }

  /** The decimal text of a natural number, as Python's `str` writes it. */
  function Decimal(n: nat): (r: string)
    ensures |r| > 0
    ensures forall i :: 0 <= i < |r| ==> IsDigit(r[i])
    ensures r[0] == '0' ==> n == 0
    decreases n
  {
    if n < 10 then [DigitChar(n)] else Decimal(n / 10) + [DigitChar(n % 10)]
  }

  /** The value of a string of decimal digits. */
  function ParseDecimal(s: string): (n: nat)
    requires forall i :: 0 <= i < |s| ==> IsDigit(s[i])
  {
    if |s| == 0 then 0 else ParseDecimal(s[..|s| - 1]) * 10 + DigitValue(s[|s| - 1])
  }

  /** Decimal text reads back as the number it was written from. */
  lemma {:induction false} DecimalRoundTrip(n: nat)
    ensures ParseDecimal(Decimal(n)) == n
    decreases n
  {
    if n >= 10 {
      DecimalRoundTrip(n / 10);
      var s := Decimal(n);
      assert s[..|s| - 1] == Decimal(n / 10);
    }
  }

  /** The decimal text of an integer, with a leading '-' when negative. */
  function IntText(i: int): (r: string)
  {
    if i < 0 then "-" + Decimal(-i) else Decimal(i)
  }

  const Title := "Modular multiplication "

  /** The shape named in the caption. */
  function ModeWord(vertexCount: nat): (w: string) {
    if IsCircle(vertexCount) then "circle" else "polygon"
  }

  /** The vertex-count field, shown only for a polygon. */
  function VertexField(vertexCount: nat): (f: string) {
    if IsCircle(vertexCount) then "" else ", V=" + Decimal(vertexCount)
  }

  /** The modulus and multiplier fields that close every caption. */
  function NumberFields(modulus: nat, multiplier: int): (r: string) {
    ", M=" + Decimal(modulus) + ", K=" + IntText(multiplier)
  }

  /** The caption for the stored parameters: the mode word, the vertex count
      only in polygon mode, then the modulus and the multiplier. */
  function Caption(vertexCount: nat, modulus: nat, multiplier: int): (r: string)
  {
    Title + ModeWord(vertexCount) + VertexField(vertexCount) + NumberFields(modulus, multiplier)
  }

  /** Number text holds digits and perhaps a minus sign, never a 'V'. */
  lemma NoLetterInNumber(i: int)
    ensures 'V' !in IntText(i)
  {
  }

  /** A character is in a concatenation iff it is in one of the parts. */
  lemma InConcat(c: char, a: string, b: string)
    ensures c in a + b <==> c in a || c in b
  {
  }

  /** Proof step of `CaptionFields`: where the vertex-count field and the
      closing fields sit. */
  lemma CaptionLayout(vertexCount: nat, modulus: nat, multiplier: int)
    ensures var r := Caption(vertexCount, modulus, multiplier);
      && (!IsCircle(vertexCount) ==>
            && |r| == |Title| + 11 + |Decimal(vertexCount)| + |NumberFields(modulus, multiplier)|
            && r[|Title| + 7..|Title| + 11 + |Decimal(vertexCount)|] == ", V=" + Decimal(vertexCount))
      && (IsCircle(vertexCount) ==> |r| == |Title| + 6 + |NumberFields(modulus, multiplier)|)
      && r[|r| - |NumberFields(modulus, multiplier)|..] == NumberFields(modulus, multiplier)
  {
    var head := Title + ModeWord(vertexCount);
    var v := VertexField(vertexCount);
    var rest := NumberFields(modulus, multiplier);
    var r := Caption(vertexCount, modulus, multiplier);
    assert r == head + v + rest;
    assert r[|r| - |rest|..] == rest;
    if !IsCircle(vertexCount) {
      assert r[|head|..|head| + |v|] == v;
    }
  }

  /** Proof step of `CaptionFields`: the title, the mode word and the
      capital V, which only the vertex-count field can bring. */
  lemma CaptionHead(vertexCount: nat, modulus: nat, multiplier: int)
    ensures var r := Caption(vertexCount, modulus, multiplier);
      && |r| > |Title| && r[..|Title|] == Title
      && (!IsCircle(vertexCount) ==> r[|Title|..][..7] == "polygon")
      && (IsCircle(vertexCount) ==> r[|Title|..][..6] == "circle")
      && ('V' in r <==> !IsCircle(vertexCount))
  {
    var mode := ModeWord(vertexCount);
    var v := VertexField(vertexCount);
    var rest := NumberFields(modulus, multiplier);
    var r := Caption(vertexCount, modulus, multiplier);
    assert r == Title + mode + v + rest;
    assert r[..|Title|] == Title;
    assert r[|Title|..] == mode + (v + rest);
    NoLetterInNumber(modulus);
    NoLetterInNumber(multiplier);
    InConcat('V', ", M=", Decimal(modulus));
    InConcat('V', ", M=" + Decimal(modulus) + ", K=", IntText(multiplier));
    InConcat('V', ", M=" + Decimal(modulus), ", K=");
    assert 'V' !in rest;
    assert 'V' !in Title + mode;
    InConcat('V', Title + mode, v);
    InConcat('V', Title + mode + v, rest);
    if !IsCircle(vertexCount) {
      assert v[2] == 'V';
    }
  }

  /** The caption opens with the title and the mode word, "polygon" or
      "circle". In polygon mode the mode word is followed by ", V=" and the
      vertex count, and that is the only capital V the caption can contain;
      in circle mode nothing comes between the mode word and the closing
      fields. The caption ends with ", M=", the modulus, ", K=" and the
      multiplier. */
  lemma CaptionFields(vertexCount: nat, modulus: nat, multiplier: int)
    ensures var r := Caption(vertexCount, modulus, multiplier);
      && |r| > |Title| && r[..|Title|] == Title
      && (!IsCircle(vertexCount) ==> r[|Title|..][..7] == "polygon")
      && (IsCircle(vertexCount) ==> r[|Title|..][..6] == "circle")
      && ('V' in r <==> !IsCircle(vertexCount))
      && (!IsCircle(vertexCount) ==>
            && |r| == |Title| + 11 + |Decimal(vertexCount)| + |NumberFields(modulus, multiplier)|
            && r[|Title| + 7..|Title| + 11 + |Decimal(vertexCount)|] == ", V=" + Decimal(vertexCount))
      && (IsCircle(vertexCount) ==> |r| == |Title| + 6 + |NumberFields(modulus, multiplier)|)
      && r[|r| - |NumberFields(modulus, multiplier)|..] == ", M=" + Decimal(modulus) + ", K=" + IntText(multiplier)
  {
    CaptionHead(vertexCount, modulus, multiplier);
    CaptionLayout(vertexCount, modulus, multiplier);
  }
}

=== FILE: connections.dfy ===
/** The multiplication graph: boundary sample `i` is joined to sample
    `i * multiplier mod L`, where `L` is the number of boundary samples. */
module ConnectionGraph {

  /** A connection from one boundary-sample index to another. */
  type Pair = (nat, nat)

  /** Where sample `i` is joined to: `i * multiplier mod count`. */
  function EndIndex(i: nat, multiplier: int, count: nat): (e: nat)
    requires count > 0
    ensures e < count
  {
    (i * multiplier) % count
  }

  /** The reference definition of the graph on `count` samples. The end index
      of every pair is a valid sample index, sample 0 always loops to itself,
      and no samples means no pairs (the modulo is never taken by zero). */
  function Connections(count: nat, multiplier: int): (r: seq<Pair>)
    ensures |r| == count
    ensures forall i :: 0 <= i < count ==> r[i].0 == i && r[i].1 < count
    ensures count > 0 ==> r[0] == (0, 0)
  {
    seq(count, i requires 0 <= i < count => (i, EndIndex(i, multiplier, count)))
  }

  /** Builds the graph the way the program does, one pair per boundary sample
      in sample order. Python's `%` with a positive divisor never returns a
      negative value, and neither does Dafny's, so the two agree for every
      multiplier. */
  method ComputeConnections<P>(edgePoints: seq<P>, multiplier: int) returns (r: seq<Pair>)
    ensures r == Connections(|edgePoints|, multiplier)
  {
    r := [];
    var i := 0;
    while i < |edgePoints|
      invariant i <= |edgePoints|
      invariant |r| == i
      invariant forall j :: 0 <= j < i ==> r[j] == (j, (j * multiplier) % |edgePoints|)
    {
      var endIndex := (i * multiplier) % |edgePoints|;
      r := r + [(i, endIndex)];
      i := i + 1;
    }
  }

  /** Adding a multiple of `n` does not change the residue. */
  lemma ModShift(a: int, q: int, n: nat)
    requires n > 0
    ensures (a + q * n) % n == a % n
  {
    var b := a + q * n;
    assert b == n * (b / n) + b % n;
    assert a == n * (a / n) + a % n;
    var d := b / n - a / n - q;
    assert b % n - a % n == -(n * d) by {
      assert b % n - a % n == (b - n * (b / n)) - (a - n * (a / n));
      assert (b - n * (b / n)) - (a - n * (a / n)) == q * n - n * (b / n) + n * (a / n);
    }
  }

  /** Only the multiplier's residue modulo the sample count matters: any
      multiplier, however large, draws the same graph as its remainder. */
  lemma ReduceMultiplier(count: nat, multiplier: int)
    requires count > 0
    ensures Connections(count, multiplier) == Connections(count, multiplier % count)
  {
    var m := multiplier % count;
    var q := multiplier / count;
    assert multiplier == m + q * count;
    forall i | 0 <= i < count
      ensures (i * multiplier) % count == (i * m) % count
    {
      assert i * multiplier == i * m + (i * q) * count;
      ModShift(i * m, i * q, count);
    }
  }
}

=== FILE: controller.dfy ===
/** The display controller: four stored parameters and three derived caches,
    refreshed by `change_parameters`, which recomputes only the stale stages. */
module Controller {
  import opened Wrappers
  import opened Geometry
  import opened ConnectionGraph

  /** The controller state. The caches are optional because a freshly
      constructed display has none of them: they are first assigned by a call
      that recomputes them. */
  datatype Display = Display(
    vertexCount: nat,
    modulus: nat,
    multiplier: int,
    angle: Angle,
    vertices: Option<seq<Point>>,
    edgePoints: Option<seq<Point>>,
    connections: Option<seq<Pair>>)

  /** The ways the program's calls fail. The `Missing` faults are reads of an
      attribute that was never assigned; `DivisionByZero` is the sample count
      per side with a zero vertex count; `IndexOutOfRange` is a connection end
      that is not a boundary-sample index. */
  datatype Fault =
    | DivisionByZero
    | MissingVertices
    | MissingEdgePoints
    | MissingConnections
    | IndexOutOfRange

  /** A call that raised: the fault, and the state it left behind. The
      program assigns some attributes before the statement that raises, and
      those assignments stay. */
  datatype Raised = Raised(fault: Fault, left: Display)

  /** Which caches a call recomputed. */
  datatype Redone = Redone(vertices: bool, edgePoints: bool, connections: bool)

  /** The state after a call and what the call recomputed. */
  datatype Update = Update(display: Display, redone: Redone)

  /** Nothing recomputed. */
  const NothingRedone := Redone(false, false, false)

  /** The state the constructor leaves: parameters (3, 9, 2, 0) and no caches. */
  function Initial(): (d: Display)
  {
    Display(3, 9, 2, 0.0, None, None, None)
  }

  /** Every cache is present and equal to what a from-scratch computation on
      the stored parameters yields. */
  predicate Consistent(d: Display) {
    && d.vertexCount > 0
    && d.vertices == Some(Vertices(d.vertexCount, d.angle))
    && d.edgePoints == Some(FreshEdgePoints(d.vertexCount, d.modulus, d.angle))
    && d.connections == Some(Connections(|d.edgePoints.value|, d.multiplier))
  }

  /** The connections, when present, are the graph of the current number of
      boundary samples and the stored multiplier. */
  predicate GraphCurrent(d: Display) {
    d.connections.Some? ==> d.connections.value == Connections(CachedCount(d.edgePoints), d.multiplier)
  }

  /** The stored parameters are the given ones. */
  predicate Holds(d: Display, vertexCount: nat, modulus: nat, multiplier: int, angle: Angle) {
    d.vertexCount == vertexCount && d.modulus == modulus && d.multiplier == multiplier && d.angle == angle
  }

  /** The number of boundary samples before a call; 0 when there are none yet. */
  function CachedCount(edgePoints: Option<seq<Point>>): (n: nat) {
    if edgePoints.Some? then |edgePoints.value| else 0
  }

  /** `change_parameters` as the program has it. The stale stages are
      recomputed in order -- corners, boundary samples, connections -- each
      from the stored state as the earlier stages left it. Connections are
      recomputed when the multiplier changed or the NUMBER of boundary samples
      changed, as only those two determine the graph.

      On success the stored parameters are the arguments; a stage is redone
      exactly under its staleness condition and then holds the fresh value,
      and a stage that is not redone keeps its cache. From a consistent state
      the call with a positive vertex count always succeeds and leaves a
      consistent state: every skipped recomputation was sound.

      The call raises in exactly three cases: the samples are due in polygon
      mode with a zero vertex count (division by zero), or with corners that
      were never computed; or the samples are not due and were never
      computed. On failure the state left behind holds the new angle, and, when the
      corners or the samples were due, the new vertex count and corners and
      the new modulus, as the assignments before the raising statement leave
      them. Everything else keeps its old value: the multiplier is stored only
      after the last place that raises, so a failing call leaves the old
      multiplier and, with it, connections that are still current. */
  function ChangeParametersAsWritten(d: Display, vertexCount: nat, modulus: nat, multiplier: int, angle: Angle)
    : (r: Result<Update, Raised>)
    ensures r.Success? ==> Holds(r.value.display, vertexCount, modulus, multiplier, angle)
    ensures r.Success? ==> r.value.display.edgePoints.Some?
    ensures r.Success? && r.value.redone.edgePoints ==>
      vertexCount > 0 &&
      r.value.display.edgePoints == Some(EdgePoints(vertexCount, modulus, angle, r.value.display.vertices.GetOr([])))
    ensures r.Success? ==>
      (r.value.redone.vertices <==> d.angle != angle || d.vertexCount != vertexCount)
    ensures r.Success? ==>
      (r.value.redone.edgePoints <==> d.angle != angle || d.vertexCount != vertexCount || d.modulus != modulus)
    ensures r.Success? ==>
      (r.value.redone.connections <==>
        CachedCount(d.edgePoints) != |r.value.display.edgePoints.value| || d.multiplier != multiplier)
    ensures r.Success? ==>
      r.value.display.vertices == (if r.value.redone.vertices then Some(Vertices(vertexCount, angle)) else d.vertices)
    ensures r.Success? && !r.value.redone.edgePoints ==> r.value.display.edgePoints == d.edgePoints
    ensures r.Success? ==>
      r.value.display.connections ==
        (if r.value.redone.connections
         then Some(Connections(|r.value.display.edgePoints.value|, multiplier))
         else d.connections)
    ensures GraphCurrent(d) && r.Success? ==> GraphCurrent(r.value.display)
    ensures Consistent(d) && vertexCount > 0 ==> r.Success? && Consistent(r.value.display)
    ensures var redoVertices := d.angle != angle || d.vertexCount != vertexCount;
      var redoEdgePoints := redoVertices || d.modulus != modulus;
      && (r.Failure? <==>
            || (redoEdgePoints && !IsCircle(vertexCount) && (vertexCount == 0 || (!redoVertices && d.vertices.None?)))
            || (!redoEdgePoints && d.edgePoints.None?))
      && (r.Failure? && redoEdgePoints && vertexCount == 0 ==> r.error.fault == DivisionByZero)
      && (r.Failure? && redoEdgePoints && vertexCount != 0 ==> r.error.fault == MissingVertices)
      && (r.Failure? && !redoEdgePoints ==> r.error.fault == MissingEdgePoints)
    ensures r.Failure? ==> r.error.left.angle == angle
    ensures r.Failure? && (d.angle != angle || d.vertexCount != vertexCount) ==>
      r.error.left.vertexCount == vertexCount && r.error.left.vertices == Some(Vertices(vertexCount, angle))
    ensures r.Failure? && (d.angle != angle || d.vertexCount != vertexCount || d.modulus != modulus) ==>
      r.error.left.modulus == modulus
    ensures r.Failure? ==> r.error.left.edgePoints == d.edgePoints && r.error.left.connections == d.connections
    ensures r.Failure? ==> r.error.left.multiplier == d.multiplier
    ensures r.Failure? && d.angle == angle && d.vertexCount == vertexCount ==>
      r.error.left.vertexCount == d.vertexCount && r.error.left.vertices == d.vertices
    ensures r.Failure? && d.angle == angle && d.vertexCount == vertexCount && d.modulus == modulus ==>
      r.error.left.modulus == d.modulus
    ensures r.Failure? && GraphCurrent(d) ==> GraphCurrent(r.error.left)
  {
    var vertexCountChanged := d.vertexCount != vertexCount;
    var modulusChanged := d.modulus != modulus;
    var multiplierChanged := d.multiplier != multiplier;
    var angleChanged := d.angle != angle;
    var previousCount := CachedCount(d.edgePoints);

    var d1 := d.(angle := angle);
    var redoVertices := angleChanged || vertexCountChanged;
    var d2 := if redoVertices
      then d1.(vertexCount := vertexCount, vertices := Some(Vertices(vertexCount, angle)))
      else d1;

    var redoEdgePoints := angleChanged || vertexCountChanged || modulusChanged;
    if redoEdgePoints && !IsCircle(d2.vertexCount) && d2.vertexCount == 0 then
      Failure(Raised(DivisionByZero, d2.(modulus := modulus)))
    else if redoEdgePoints && !IsCircle(d2.vertexCount) && d2.vertices.None? then
      Failure(Raised(MissingVertices, d2.(modulus := modulus)))
    else
      var d3 := if redoEdgePoints
        then d2.(modulus := modulus,
                 edgePoints := Some(EdgePoints(d2.vertexCount, modulus, angle, d2.vertices.GetOr([]))))
        else d2;
      if d3.edgePoints.None? then
        Failure(Raised(MissingEdgePoints, d3))
      else
        var count := |d3.edgePoints.value|;
        var redoConnections := previousCount != count || multiplierChanged;
        var d4 := if redoConnections
          then d3.(multiplier := multiplier, connections := Some(Connections(count, multiplier)))
          else d3;
        Success(Update(d4, Redone(redoVertices, redoEdgePoints, redoConnections)))
  }

  /** `change_parameters` with the connections also treated as stale while
      they have never been computed. It differs from the program only on a
      state without connections; every successful call leaves the connections
      present and, when the connections it started from were current, equal
      to the graph of the current samples and multiplier; after a first
      successful call every cache is consistent. */
  function ChangeParameters(d: Display, vertexCount: nat, modulus: nat, multiplier: int, angle: Angle)
    : (r: Result<Update, Raised>)
    ensures d.connections.Some? ==> r == ChangeParametersAsWritten(d, vertexCount, modulus, multiplier, angle)
    ensures r.Failure? ==> r == ChangeParametersAsWritten(d, vertexCount, modulus, multiplier, angle)
    ensures r.Failure? <==> ChangeParametersAsWritten(d, vertexCount, modulus, multiplier, angle).Failure?
    ensures r.Success? ==> Holds(r.value.display, vertexCount, modulus, multiplier, angle)
    ensures r.Success? ==> r.value.display.connections.Some?
    ensures r.Success? && GraphCurrent(d) ==>
      r.value.display.edgePoints.Some? &&
      r.value.display.connections == Some(Connections(|r.value.display.edgePoints.value|, multiplier))
    ensures r.Success? && d == Initial() ==> Consistent(r.value.display)
    ensures Consistent(d) && vertexCount > 0 ==> r.Success? && Consistent(r.value.display)
  {
    match ChangeParametersAsWritten(d, vertexCount, modulus, multiplier, angle)
    case Failure(f) => Failure(f)
    case Success(u) =>
      if u.display.connections.Some? then Success(u)
      else
        var count := |u.display.edgePoints.value|;
        Success(Update(
          u.display.(multiplier := multiplier, connections := Some(Connections(count, multiplier))),
          u.redone.(connections := true)))
  }

  /** Calling again with the same arguments recomputes nothing and leaves the
      state as it is. */
  lemma RepeatedCallIsIdle(d: Display, vertexCount: nat, modulus: nat, multiplier: int, angle: Angle)
    requires ChangeParametersAsWritten(d, vertexCount, modulus, multiplier, angle).Success?
    ensures var u := ChangeParametersAsWritten(d, vertexCount, modulus, multiplier, angle).value;
      ChangeParametersAsWritten(u.display, vertexCount, modulus, multiplier, angle) == Success(Update(u.display, NothingRedone))
    ensures var u := ChangeParameters(d, vertexCount, modulus, multiplier, angle).value;
      ChangeParameters(u.display, vertexCount, modulus, multiplier, angle) == Success(Update(u.display, NothingRedone))
  {
  }

  /** The first call on a fresh display fails exactly when it divides by a
      zero vertex count, or when it changes neither the angle nor the vertex
      count: then no corners were ever computed, and the call either samples
      the polygon through them or reads boundary samples that do not exist. */
  lemma FirstCallFaults(vertexCount: nat, modulus: nat, multiplier: int, angle: Angle)
    ensures var r := ChangeParametersAsWritten(Initial(), vertexCount, modulus, multiplier, angle);
      && (r.Failure? <==> vertexCount == 0 || (vertexCount == 3 && angle == 0.0))
      && (vertexCount == 0 ==> r.Failure? && r.error.fault == DivisionByZero)
      && (vertexCount == 3 && angle == 0.0 && modulus != 9 ==> r.Failure? && r.error.fault == MissingVertices)
      && (vertexCount == 3 && angle == 0.0 && modulus == 9 ==> r.Failure? && r.error.fault == MissingEdgePoints)
  {
  }

  /** A call with vertex count 0 on a consistent display raises, but only
      after storing the angle, the vertex count 0, an empty corner list and
      the modulus. Repeating the same call then finds nothing changed and
      succeeds, keeping the old samples and connections under a vertex count
      of 0, so the state is no longer consistent. */
  lemma RetryAfterZeroVertexCount(d: Display)
    requires Consistent(d)
    ensures var r := ChangeParametersAsWritten(d, 0, d.modulus, d.multiplier, d.angle);
      && r.Failure? && r.error.fault == DivisionByZero
      && r.error.left.vertexCount == 0 && r.error.left.vertices == Some([])
      && var again := ChangeParametersAsWritten(r.error.left, 0, d.modulus, d.multiplier, d.angle);
         && again.Success?
         && again.value.redone == NothingRedone
         && again.value.display.edgePoints == d.edgePoints
         && again.value.display.connections == d.connections
         && !Consistent(again.value.display)
  {
  }

  /** After a successful first call the program holds no connections exactly
      when the call produced no boundary samples and kept the constructor's
      multiplier 2: with no samples before and none after, the sample count
      looks unchanged. */
  lemma FirstCallMissesConnections(vertexCount: nat, modulus: nat, multiplier: int, angle: Angle)
    requires ChangeParametersAsWritten(Initial(), vertexCount, modulus, multiplier, angle).Success?
    ensures var d := ChangeParametersAsWritten(Initial(), vertexCount, modulus, multiplier, angle).value.display;
      d.connections.None? <==> |d.edgePoints.value| == 0 && multiplier == 2
  {
  }

  /** One call of `change_parameters`, as the slider handler makes it. */
  datatype Call = Call(vertexCount: nat, modulus: nat, multiplier: int, angle: Angle)

  /** A sequence of calls, stopping at the first that fails. */
  function Run(d: Display, calls: seq<Call>): (r: Result<Display, Raised>)
    decreases |calls|
  {
    if |calls| == 0 then Success(d)
    else
      match ChangeParameters(d, calls[0].vertexCount, calls[0].modulus, calls[0].multiplier, calls[0].angle)
      case Failure(f) => Failure(f)
      case Success(u) => Run(u.display, calls[1..])
  }

  /** From a consistent state, any sequence of calls with positive vertex
      counts succeeds, leaves every cache consistent and stores the last
      call's parameters. */
  lemma {:induction false} SessionStaysConsistent(d: Display, calls: seq<Call>)
    requires Consistent(d)
    requires forall i :: 0 <= i < |calls| ==> calls[i].vertexCount > 0
    ensures Run(d, calls).Success?
    ensures Consistent(Run(d, calls).value)
    ensures |calls| > 0 ==>
      var c := calls[|calls| - 1];
      Holds(Run(d, calls).value, c.vertexCount, c.modulus, c.multiplier, c.angle)
    decreases |calls|
  {
    if |calls| > 0 {
      var c := calls[0];
      var u := ChangeParameters(d, c.vertexCount, c.modulus, c.multiplier, c.angle).value;
      SessionStaysConsistent(u.display, calls[1..]);
      if |calls| > 1 {
        assert calls[1..][|calls[1..]| - 1] == calls[|calls| - 1];
      }
    }
  }

  /** A session on a fresh display: once the first call succeeds, every later
      call with a positive vertex count succeeds and the caches are consistent
      after each of them. */
  lemma {:induction false} SessionFromStart(calls: seq<Call>)
    requires |calls| > 0
    requires forall i :: 0 <= i < |calls| ==> calls[i].vertexCount > 0
    requires ChangeParameters(Initial(), calls[0].vertexCount, calls[0].modulus, calls[0].multiplier, calls[0].angle).Success?
    ensures Run(Initial(), calls).Success?
    ensures Consistent(Run(Initial(), calls).value)
  {
    var c := calls[0];
    var u := ChangeParameters(Initial(), c.vertexCount, c.modulus, c.multiplier, c.angle).value;
    SessionStaysConsistent(u.display, calls[1..]);
  }

  /** From a consistent state the connections are recomputed exactly when the
      number of boundary samples the parameters call for changes or the
      multiplier changes. A new modulus with the same number of whole samples
      per side leaves the graph alone; a new vertex count that changes the
      number of samples rebuilds it even with the same multiplier. */
  lemma ConnectionsRedoneOnCountChange(d: Display, vertexCount: nat, modulus: nat, multiplier: int, angle: Angle)
    requires Consistent(d) && vertexCount > 0
    ensures ChangeParametersAsWritten(d, vertexCount, modulus, multiplier, angle).Success?
    ensures ChangeParametersAsWritten(d, vertexCount, modulus, multiplier, angle).value.redone.connections
      <==> EdgeCount(d.vertexCount, d.modulus) != EdgeCount(vertexCount, modulus) || d.multiplier != multiplier
  {
    EdgePointCount(d.vertexCount, d.modulus, d.angle);
    EdgePointCount(vertexCount, modulus, angle);
  }
}

=== FILE: geometry.dfy ===
/** The geometry kernel of the modular multiplication display: the mode switch
    between polygon and circle, the polygon corners, and the boundary samples
    on which the multiplication graph is drawn.

    Coordinates are floating point in the program; here a point is an
    abstract value that records how it was constructed, so that counts,
    orderings and "this sample is that corner" can be stated exactly. */
module Geometry {

  /** A vertex count at or above this switches the display to circle mode. */
  const MaxVertexCount: nat := 50

  /** The rotation angle in radians. The model only ever compares two angles
      for equality, which is all the recompute logic does with them. */
  type Angle = real

  /** A point of the drawing.
      - `Root(index, count, angle)`: the point of the drawing circle at angle
        2*pi*index/count + angle, i.e. the index-th count-th root of unity,
        rotated by `angle`, scaled to the drawing radius and moved to the
        centre of the image.
      - `Between(from, to, step, steps)`: the point (1 - t)*from + t*to with
        t = step/steps, where 0 < step < steps. */
  datatype Point =
    | Root(index: nat, count: nat, angle: Angle)
    | Between(from: Point, to: Point, step: nat, steps: nat)

  /** The display is in circle mode exactly when the vertex count has reached
      the maximum. */
  predicate IsCircle(vertexCount: nat) {
    vertexCount >= MaxVertexCount
  }

  /** Circle mode starts at 50 vertices, and it is exactly the mode without
      corners for every positive vertex count. */
  lemma CircleModeThreshold(vertexCount: nat, angle: Angle)
    ensures IsCircle(vertexCount) <==> vertexCount >= 50
    ensures |Vertices(vertexCount, angle)| == 0 <==> IsCircle(vertexCount) || vertexCount == 0
  {
  }

  /** The polygon corners: none in circle mode, otherwise one root of unity
      per vertex, rotated by `angle`, counter-clockwise from the first. */
  function Vertices(vertexCount: nat, angle: Angle): (r: seq<Point>)
    ensures IsCircle(vertexCount) ==> r == []
    ensures !IsCircle(vertexCount) ==> |r| == vertexCount
    ensures forall j :: 0 <= j < |r| ==> r[j].Root? && r[j].index == j && r[j].count == vertexCount && r[j].angle == angle
    ensures forall i, j :: 0 <= i < j < |r| ==> r[i] != r[j]
  {
    if IsCircle(vertexCount) then [] else seq(vertexCount, j requires 0 <= j < vertexCount => Root(j, vertexCount, angle))
  }

  /** Step `step` of `steps` from `p1` towards `p2`. At t = 0 the interpolation
      (1 - 0)*p1 + 0*p2 is `p1` itself. */
  function Lerp(p1: Point, p2: Point, step: nat, steps: nat): (p: Point)
    requires step < steps
  {
    if step == 0 then p1 else Between(p1, p2, step, steps)
  }

  /** The `k` samples of one side, at t = 0/k, 1/k, ..., (k-1)/k; the end
      point t = 1 is left to the next side. */
  function Side(p1: Point, p2: Point, k: nat): (r: seq<Point>)
  {
    seq(k, s requires 0 <= s < k => Lerp(p1, p2, s, k))
  }

  /** The samples of sides j, j+1, ..., |vs|-1, side i running from corner i
      to corner i+1, and the last side wrapping back to corner 0. */
  function SidesFrom(vs: seq<Point>, k: nat, j: nat): (r: seq<Point>)
    requires j <= |vs|
    decreases |vs| - j
  {
    if j == |vs| then [] else Side(vs[j], vs[(j + 1) % |vs|], k) + SidesFrom(vs, k, j + 1)
  }

  /** `k` samples per side along the closed polygon through `vs`, side by side. */
  function PolygonPoints(vs: seq<Point>, k: nat): (r: seq<Point>)
  {
    SidesFrom(vs, k, 0)
  }

  /** The `modulus` points evenly spaced around the drawing circle, starting at
      angle 0 before the rotation. */
  function CirclePoints(modulus: nat, angle: Angle): (r: seq<Point>)
  {
    seq(modulus, i requires 0 <= i < modulus => Root(i, modulus, angle))
  }

  /** How many samples each polygon side gets: the integer quotient, so the
      remainder of the modulus is dropped. */
  function SamplesPerSide(vertexCount: nat, modulus: nat): (k: nat)
    requires vertexCount > 0
  {
    modulus / vertexCount
  }

  /** The boundary samples for the given parameters. In polygon mode they are
      taken along `vertices`, the polygon corners the caller holds, which need
      not be freshly computed. */
  function EdgePoints(vertexCount: nat, modulus: nat, angle: Angle, vertices: seq<Point>): (r: seq<Point>)
    requires vertexCount > 0
  {
    if IsCircle(vertexCount) then CirclePoints(modulus, angle)
    else PolygonPoints(vertices, SamplesPerSide(vertexCount, modulus))
  }

  /** The boundary samples computed from scratch: the reference against which
      the cached samples of the display are judged. */
  function FreshEdgePoints(vertexCount: nat, modulus: nat, angle: Angle): (r: seq<Point>)
    requires vertexCount > 0
  {
    EdgePoints(vertexCount, modulus, angle, Vertices(vertexCount, angle))
  }

  /** Sample `s` of the side that starts at corner `j`. */
  function Sample(vs: seq<Point>, k: nat, j: nat, s: nat): (p: Point)
    requires j < |vs| && s < k
  {
    Lerp(vs[j], vs[(j + 1) % |vs|], s, k)
  }

  /** One more row of `k`. */
  lemma MulSucc(a: nat, k: nat)
    ensures (a + 1) * k == k + a * k
  {
  }

  /** Whole multiples of `n` in `m` never exceed `m`. */
  lemma QuotientBounds(n: nat, m: nat)
    requires n > 0
    ensures n * (m / n) <= m
    ensures m % n == 0 ==> n * (m / n) == m
    ensures m < n ==> n * (m / n) == 0
  {
    assert n * (m / n) + m % n == m;
  }

  /** Sides `j` to the last hold `k` samples each. */
  lemma {:induction false} SidesFromLength(vs: seq<Point>, k: nat, j: nat)
    requires j <= |vs|
    ensures |SidesFrom(vs, k, j)| == (|vs| - j) * k
    decreases |vs| - j
  {
    if j < |vs| {
      SidesFromLength(vs, k, j + 1);
      MulSucc(|vs| - (j + 1), k);
    }
  }

  /** Sample `s` of side `i` sits at offset `(i - j) * k + s` from side `j`. */
  lemma {:induction false} SidesFromAt(vs: seq<Point>, k: nat, j: nat, i: nat, s: nat)
    requires j <= i < |vs| && s < k
    ensures (i - j) * k + s < |SidesFrom(vs, k, j)|
    ensures SidesFrom(vs, k, j)[(i - j) * k + s] == Sample(vs, k, i, s)
    decreases |vs| - j
  {
    var head := Side(vs[j], vs[(j + 1) % |vs|], k);
    var tail := SidesFrom(vs, k, j + 1);
    assert SidesFrom(vs, k, j) == head + tail;
    if i == j {
      assert (i - j) * k + s == s;
      assert (head + tail)[s] == head[s];
    } else {
      SidesFromAt(vs, k, j + 1, i, s);
      var t := (i - (j + 1)) * k + s;
      MulSucc(i - (j + 1), k);
      assert (i - j) * k + s == k + t;
      assert (head + tail)[k + t] == tail[t];
    }
  }

  /** Splitting a sample number into its side and its step. */
  lemma DivModSplit(idx: nat, k: nat, n: nat)
    requires k > 0 && idx < n * k
    ensures idx / k < n
    ensures (idx / k) * k + idx % k == idx
  {
  }

  /** The sampling order along a polygon: `|vs| * k` samples, and sample
      number `idx` is step `idx mod k` of `k` on the side from corner
      `j = idx div k` to corner `(j+1) mod |vs|`; in particular sample `j*k`
      is corner `j` itself. */
  lemma PolygonSampleOrder(vs: seq<Point>, k: nat)
    ensures |PolygonPoints(vs, k)| == |vs| * k
    ensures forall idx :: 0 <= idx < |vs| * k ==>
      idx / k < |vs| && PolygonPoints(vs, k)[idx] == Sample(vs, k, idx / k, idx % k)
    ensures forall idx :: 0 <= idx < |vs| * k && idx % k == 0 ==> PolygonPoints(vs, k)[idx] == vs[idx / k]
  {
    SidesFromLength(vs, k, 0);
    forall idx | 0 <= idx < |vs| * k
      ensures idx / k < |vs| && PolygonPoints(vs, k)[idx] == Sample(vs, k, idx / k, idx % k)
    {
      DivModSplit(idx, k, |vs|);
      SidesFromAt(vs, k, 0, idx / k, idx % k);
      assert (idx / k - 0) * k + idx % k == idx;
    }
  }

  /** How many boundary samples the parameters call for: the modulus in
      circle mode, whole sides' worth of samples in polygon mode. */
  function EdgeCount(vertexCount: nat, modulus: nat): (n: nat)
    requires vertexCount > 0
  {
    if IsCircle(vertexCount) then modulus else vertexCount * SamplesPerSide(vertexCount, modulus)
  }

  /** The boundary samples number `EdgeCount`: the modulus in circle mode;
      `vertexCount * (modulus / vertexCount)` in polygon mode, which never
      exceeds the modulus, is the modulus itself when the vertex count divides
      it, and is zero when the modulus is below the vertex count. */
  lemma EdgePointCount(vertexCount: nat, modulus: nat, angle: Angle)
    requires vertexCount > 0
    ensures |FreshEdgePoints(vertexCount, modulus, angle)| == EdgeCount(vertexCount, modulus)
    ensures IsCircle(vertexCount) ==> EdgeCount(vertexCount, modulus) == modulus
    ensures !IsCircle(vertexCount) ==> EdgeCount(vertexCount, modulus) == vertexCount * (modulus / vertexCount)
    ensures EdgeCount(vertexCount, modulus) <= modulus
    ensures modulus % vertexCount == 0 ==> EdgeCount(vertexCount, modulus) == modulus
    ensures !IsCircle(vertexCount) && modulus < vertexCount ==> EdgeCount(vertexCount, modulus) == 0
  {
    if !IsCircle(vertexCount) {
      SidesFromLength(Vertices(vertexCount, angle), modulus / vertexCount, 0);
      QuotientBounds(vertexCount, modulus);
    }
  }
}

=== FILE: rendering.dfy ===
/** What `get_image` reads from the controller state: the outline, one line
    segment per connection between the boundary samples it joins, and the
    caption. The pixels themselves are left to the imaging library. */
module Rendering {
  import opened Wrappers
  import opened Geometry
  import opened ConnectionGraph
  import opened Controller
  import opened Captions

  /** The shape drawn under the graph: the drawing circle, or the closed
      polygon through the corners. */
  datatype Outline = CircleOutline | PolygonOutline(corners: seq<Point>)

  /** A line from one boundary sample to another. */
  type Segment = (Point, Point)

  /** Everything one image shows. */
  datatype Scene = Scene(outline: Outline, segments: seq<Segment>, caption: string)

  /** The outline: the circle in circle mode, otherwise the polygon through
      the cached corners, which must exist. */
  function OutlineOf(d: Display): (r: Result<Outline, Fault>)
  {
    if IsCircle(d.vertexCount) then Success(CircleOutline)
    else if d.vertices.None? then Failure(MissingVertices)
    else Success(PolygonOutline(d.vertices.value))
  }

  /** The segments, connection by connection; looking up either end of a
      connection reads the boundary samples and fails on a missing cache or an
      index past its end. */
  function Segments(conns: seq<Pair>, edgePoints: Option<seq<Point>>): (r: Result<seq<Segment>, Fault>)
    decreases |conns|
  {
    if |conns| == 0 then Success([])
    else if edgePoints.None? then Failure(MissingEdgePoints)
    else if conns[0].0 >= |edgePoints.value| || conns[0].1 >= |edgePoints.value| then Failure(IndexOutOfRange)
    else
      match Segments(conns[1..], edgePoints)
      case Failure(f) => Failure(f)
      case Success(rest) => Success([(edgePoints.value[conns[0].0], edgePoints.value[conns[0].1])] + rest)
  }

  /** Looking up the connections succeeds exactly when every end index is a
      boundary-sample index, and then segment `i` joins the two samples that
      connection `i` names. */
  lemma {:induction false} SegmentsLookup(conns: seq<Pair>, points: seq<Point>)
    ensures Segments(conns, Some(points)).Success? <==>
      forall i :: 0 <= i < |conns| ==> conns[i].0 < |points| && conns[i].1 < |points|
    ensures Segments(conns, Some(points)).Success? ==>
      var segs := Segments(conns, Some(points)).value;
      |segs| == |conns| &&
      forall i :: 0 <= i < |conns| ==> segs[i] == (points[conns[i].0], points[conns[i].1])
    decreases |conns|
  {
    if |conns| > 0 {
      SegmentsLookup(conns[1..], points);
      assert forall i :: 1 <= i < |conns| ==> conns[1..][i - 1] == conns[i];
    }
  }

  /** The scene `get_image` draws from the stored state, in its order:
      outline, segments, caption. */
  function Render(d: Display): (r: Result<Scene, Fault>)
  {
    var outline :- OutlineOf(d);
    var segments :- if d.connections.None? then Failure(MissingConnections) else Segments(d.connections.value, d.edgePoints);
    Success(Scene(outline, segments, Caption(d.vertexCount, d.modulus, d.multiplier)))
  }

  /** A consistent state always renders: the outline matches the mode, and
      there is one segment per boundary sample, segment `i` joining sample `i`
      to sample `i * multiplier mod L`. */
  lemma RenderConsistent(d: Display)
    requires Consistent(d)
    ensures Render(d).Success?
    ensures var scene := Render(d).value;
      var points := d.edgePoints.value;
      && scene.outline == (if IsCircle(d.vertexCount) then CircleOutline else PolygonOutline(Vertices(d.vertexCount, d.angle)))
      && |scene.segments| == |points|
      && (forall i :: 0 <= i < |points| ==>
            scene.segments[i] == (points[i], points[(i * d.multiplier) % |points|]))
      && scene.caption == Caption(d.vertexCount, d.modulus, d.multiplier)
  {
    SegmentsLookup(d.connections.value, d.edgePoints.value);
  }

  /** The program, called once on a fresh display with four vertices, modulus
      2 and the constructor's multiplier 2, keeps no connections, and drawing
      then fails; the corrected call draws an empty graph. */
  lemma DrawAfterFirstCallFails()
    ensures var r := ChangeParametersAsWritten(Initial(), 4, 2, 2, 0.0);
      && r.Success?
      && r.value.display.edgePoints == Some([])
      && r.value.display.connections.None?
      && Render(r.value.display) == Failure(MissingConnections)
    ensures var r := ChangeParameters(Initial(), 4, 2, 2, 0.0);
      && r.Success?
      && Render(r.value.display).Success?
      && Render(r.value.display).value.segments == []
  {
    var r := ChangeParametersAsWritten(Initial(), 4, 2, 2, 0.0);
    EdgePointCount(4, 2, 0.0);
    assert r.value.display.edgePoints == Some(FreshEdgePoints(4, 2, 0.0));
  }
}

=== FILE: wrappers.dfy ===
/** Failure-compatible wrappers used by the display model: `Option` for the
    caches the display object may not have yet, `Result` for the calls that
    raise. */
module Wrappers {

  /** A value that may be absent, like an attribute that has not been assigned yet. */
  datatype Option<+T> = None | Some(value: T) {

    /** Returns the value in Some, or the given default for None. */
    function GetOr(default: T): T {
      match this
      case Some(v) => v
      case None => default
    }
  }

  /** Either the value of a call that returned, or the fault it raised. */
  datatype Result<+R, +E> = Success(value: R) | Failure(error: E) {

    predicate IsFailure() {
      Failure?
    }

    function PropagateFailure<U>(): Result<U, E>
      requires Failure?
    {
      Failure(error)
    }

    function Extract(): R
      requires Success?
    {
      value
    }
  }
}
